=== FILE: README.md ===
# Superliminal object manipulation, modelled in Dafny

This project models the object-manipulation core of a first-person Unity
game with a mechanic inspired by *Superliminal*. There are three parts:

- **`Superliminal`**, the controller. It runs once per frame (`HandleInput`) and once per physics tick (`FixedUpdate`).
  - A left click grabs the object the grab ray hits, or releases the held one.
  - Right held plus T "shutter-captures" a ghost within 20 units and turns it back to normal.
  - Holding R enters rotation mode. T toggles the held object's ghost state.
  - Each physics tick rescales the held object in proportion to the distance to the surface behind it, and turns it by the mouse delta while in rotation mode.
- **`SuperliminalObject`**, the per-object component. It holds the persistent `IsGhost` flag. Toggling it switches gravity and recolours a cached material instance between a translucent red "ghost" look and the object's original opaque look.
- **`ObjectRotator`**, the helper that turns the held object.

The engine does not appear in the model. Raycasts, distances, the mouse delta and the frame time are inputs to the step functions. Scene objects are a `map` from ids to plain records holding a Rigidbody's flags, a collider's enabled flag, the optional component and the scale.

Files and modules:

| file | module | contents |
|---|---|---|
| basics.dfy | `Basics` | `Option`, `Vec2`, `Vec3`, `Color` |
| physics.dfy | `Physics` | Rigidbody flags and constraints, collider flag |
| superliminal_object.dfy | `SuperliminalObject` | material, component, `Awake`, `ApplyMaterialState`, `ToggleState`, toggle laws |
| object_rotator.dfy | `ObjectRotator` | `SetRotationActive`, `RotateTarget`, sign convention |
| superliminal.dfy | `Superliminal` | scene, frame input, the four input blocks, `Step`, resize, `FixedUpdate` |
| superliminal_properties.dfy | `SuperliminalProperties` | lemmas about `Step` and runs of frames |

## Modelling decisions

- **Input blocks and early returns.** `Step` applies the input blocks in source order: click, shutter capture, R, then T. An early `return` becomes the `Return` case of `Flow` and skips the later blocks. A grab-ray hit on an object without a `SuperliminalObject` returns this way.
- **`ToggleState` without a Rigidbody.** `ToggleState` has no guard for a component that `Awake` disabled (Assets/Scripts/SuperliminalObject.cs:28-33). If the object has a Rigidbody but no Renderer, the toggle still works: gravity is updated and the material is left alone. If it has no Rigidbody, the source flips `IsGhost`, skips the null material, and then faults writing `rb.useGravity`. The Unity runtime abandons the rest of that `Update`. The model makes this case explicit as `Outcome.Faulted`, which ends the frame. It does not add a guard, and it does not put a precondition on the toggle.
- **Two rays.** The grab ray and the capture ray are separate inputs. In the source they share origin, direction and mask, but the capture ray is cast after a release in the same frame may have re-enabled a collider. The capture ray reports its nearest hit. The model applies the 20-unit reach itself (`CaptureRange`). Because the two rays are independent inputs, the model also admits frames the source cannot produce. An example is an empty-handed click whose grab ray misses while the capture ray hits within reach. In the source a grab miss with empty hands implies a capture miss, since both are the same cast on `targetMask` and the capture reach is the shorter (Assets/Scripts/Superliminal/Superliminal.cs:125, 202). The model over-approximates here, so its safety lemmas cover those frames too.
- **Releasing in rotation mode.** One might expect a release in rotation mode to restore the camera's look-at target. The code does not. It switches rotation mode and the rotator off, but leaves `FirstPersonController.RotationOverridden` set and the virtual camera's look-at cleared. Only a later session's R-release restores them. The model follows the code (`ReleaseEndsSession`, `EmptyHandedNeverRestoresCamera`).
- **Rotation mode is held, not toggled.** It is held, as in the live controller (Assets/Scripts/Superliminal/Superliminal.cs:222-249).

## Model

| member | source | states |
|---|---|---|
| SuperliminalObject.Awake | Assets/Scripts/SuperliminalObject.cs:23-48 | `IsGhost` keeps its inspector value, which is false by default. Without a Rigidbody or Renderer the component is disabled and caches no material and no colour. Otherwise it caches the material and reads the colour from `_BaseColor`, then `_Color`, else keeps the default colour. |
| SuperliminalObject.WriteColor | Assets/Scripts/SuperliminalObject.cs:104-111 | The colour is written only to the first property the material has (`_BaseColor`, then `_Color`). Which colour properties exist is unchanged. A material with only `_Color` gets the colour there. A material with `_BaseColor` keeps its `_Color` value. Reading back through the same order yields the written colour, and a material with neither property is unchanged. |
| SuperliminalObject.WriteReadColor | Assets/Scripts/SuperliminalObject.cs:40-47 | Writing back the colour just read, through the same `_BaseColor`-then-`_Color` lookup the cache uses, leaves the material unchanged, whatever the fallback. |
| SuperliminalObject.ApplyMaterialState | Assets/Scripts/SuperliminalObject.cs:71-112 | A null material stays null. Otherwise the material is dressed for the requested state. Ghost: surface transparent, SrcAlpha/OneMinusSrcAlpha blending, no depth write, alpha test off, transparent keyword on, Transparent queue, tint (1,0,0,0.5). Normal: opaque surface, One/Zero blending, depth write, transparent keyword off, Geometry queue, cached original colour. Which colour properties exist is unchanged, and `_Color` keeps its value when `_BaseColor` exists. |
| SuperliminalObject.AwakeCachesRestorableColor | Assets/Scripts/SuperliminalObject.cs:16-48 | With the inspector default, a configured component starts as a normal object. The colour `Awake` caches is the colour a toggle into ghost and back leaves on the material. |
| SuperliminalObject.ToggleState | Assets/Scripts/SuperliminalObject.cs:52-68 | `IsGhost` is negated. The material is dressed for the new state. With a Rigidbody, gravity becomes `!IsGhost` and nothing else on the body changes. Without one, the toggle faults after the flag and material change. |
| SuperliminalObject.ToggleTwiceRestores | Assets/Scripts/SuperliminalObject.cs:52-111 | From any settled state, two toggles restore the flag, gravity, surface, depth write, queue, both colour properties and the whole body. |
| SuperliminalObject.ToggleForgetsHistory | Assets/Scripts/SuperliminalObject.cs:52-111 | The state after a toggle depends only on the new flag, the cached colour and the material's colour properties, not on the earlier material settings. |
| SuperliminalObject.AlphaTestNotRestored | Assets/Scripts/SuperliminalObject.cs:87-101 | Ghosting turns `_ALPHATEST_ON` off and un-ghosting never turns it back on, so a cut-out material differs after three toggles from after one. |
| SuperliminalObject.ToggleTimesParity | Assets/Scripts/SuperliminalObject.cs:54-67 | After n toggles the flag equals the initial one exactly when n is even. After at least one toggle, gravity and material agree with the flag. |
| ObjectRotator.SetRotationActive | Assets/Scripts/Superliminal/ObjectRotator.cs:18-33 | The active flag becomes exactly the argument; speed and inversion are unchanged. |
| ObjectRotator.RotateTarget | Assets/Scripts/Superliminal/ObjectRotator.cs:36-38 | A turn is produced exactly when there is a target and rotation is active; otherwise nothing happens. |
| ObjectRotator.RotateTargetAngles | Assets/Scripts/Superliminal/ObjectRotator.cs:41-54 | Yaw about world up is `delta.x * speed * dt * factor`. Pitch about local right is `delta.y * speed * dt * factor`. The factor is +1 when inverted and -1 otherwise. |
| ObjectRotator.InvertFactor | Assets/Scripts/Superliminal/ObjectRotator.cs:46 | The factor is +1 or -1, and it is +1 exactly when `inverted` is set. |
| ObjectRotator.InvertFlipsTurn | Assets/Scripts/Superliminal/ObjectRotator.cs:46-54 | Flipping `inverted` negates both angles. |
| ObjectRotator.DefaultOpposesMouse | Assets/Scripts/Superliminal/ObjectRotator.cs:11-15 | With the serialized defaults (speed 5, not inverted), rotation is inactive, and the default rotator produces no turn until activated. Once active, mouse motion turns the object the opposite way. |
| ObjectRotator.TurnIsAdditive | Assets/Scripts/Superliminal/ObjectRotator.cs:41-54 | The turn is linear in the mouse delta. |
| Superliminal.Start | Assets/Scripts/Superliminal/Superliminal.cs:61-79 | No session and rotation mode off. The camera's look-at target is cached when there is a camera, and nothing is cached otherwise. |
| Superliminal.Grab | Assets/Scripts/Superliminal/Superliminal.cs:134-155 | A grab makes the hit object the target. It becomes kinematic with rotation frozen and its collider off, and its gravity, component and scale are kept. The grab distance and its scale become the session baseline. No other object or controller field changes. |
| Superliminal.Release | Assets/Scripts/Superliminal/Superliminal.cs:161-189 | A release empties the slot and turns rotation mode off. If rotation mode was on, the rotator is switched off, keeping its speed and inversion. No other controller field changes, including the cached look-at, the limits and the baseline. The camera look-at and `RotationOverridden` are untouched. The object's collider is re-enabled and its body is dynamic with no constraints. Its gravity, component and scale are kept, and no other object changes. |
| Superliminal.ClickBlock | Assets/Scripts/Superliminal/Superliminal.cs:120-190 | Without a click nothing happens. The frame ends early exactly when an empty-handed click hits an object without the component, and then nothing has changed. |
| Superliminal.ToggleObject | Assets/Scripts/Superliminal/Superliminal.cs:99-115 | Toggling an object's component flips its flag and leaves the controller alone. It ends the frame exactly when the object has no Rigidbody. |
| Superliminal.CaptureBlock | Assets/Scripts/Superliminal/Superliminal.cs:192-220 | Shutter capture never changes the controller. It only ever turns a ghost back to normal: no object is a ghost afterwards that was not one before. |
| Superliminal.RotationBlock | Assets/Scripts/Superliminal/Superliminal.cs:222-249 | While holding, rotation mode ends the block equal to "R held". The R block never touches the scene objects or the target. |
| Superliminal.ToggleBlock | Assets/Scripts/Superliminal/Superliminal.cs:251-261 | The T block never changes the controller. It does nothing without T or in rotation mode, and it changes no object other than the held one. |
| Superliminal.Step | Assets/Scripts/Superliminal/Superliminal.cs:117-262 | A frame keeps the held object in the scene and keeps the set of scene objects. It never swaps one held object for another, and a new target is always the object the grab ray hit after a click. |
| Superliminal.ResizeTarget | Assets/Scripts/Superliminal/Superliminal.cs:265-280 | No goal scale (scale and position unchanged) exactly when there is no target or the resize ray misses. Otherwise the goal is a uniform multiple of the scale at grab time. |
| Superliminal.ResizeGoalWithinLimits | Assets/Scripts/Superliminal/Superliminal.cs:273-280 | For any hit distance, zero or huge, the goal's x scale lies in [minScaleLimit, maxScaleLimit] when the baseline x is positive and the limits are ordered. |
| Superliminal.Clamp | Assets/Scripts/Superliminal/Superliminal.cs:277 | `Mathf.Clamp` with ordered limits: a value below `min` gives `min`, a value above `max` gives `max`, and a value within them is returned unchanged. The result always lies in [min, max] for ordered limits, and is always the value or one of the limits. |
| Superliminal.ClampInScaleSpace | Assets/Scripts/Superliminal/Superliminal.cs:276-280 | For a positive baseline x, clamping the ratio to the limits divided by x and then multiplying by x is the same as clamping x times the ratio to the limits. |
| Superliminal.ResizeGoalClamped | Assets/Scripts/Superliminal/Superliminal.cs:273-280 | For any hit distance and a positive baseline x, the goal's x scale is the baseline x times the distance ratio, clamped to [minScaleLimit, maxScaleLimit]. A goal below the minimum lands on the minimum, and one above the maximum lands on the maximum. |
| Superliminal.ResizeGoalKeepsApparentSize | Assets/Scripts/Superliminal/Superliminal.cs:273-280 | When the limits do not bite, goal scale over hit distance equals baseline scale over grab distance. For example, a grab at 5 with scale 1 and a hit at 10 gives 2. |
| Superliminal.FixedUpdate | Assets/Scripts/Superliminal/Superliminal.cs:86-95 | A resize goal exists exactly when holding and the resize ray hits. A turn exists exactly when holding, in rotation mode, with the rotator active. |
| SuperliminalProperties.GrabStartsSession | Assets/Scripts/Superliminal/Superliminal.cs:120-155 | A left click with empty hands on a `SuperliminalObject` starts a session. The target is set, the body is kinematic with rotation frozen, the collider is off, the baseline is the grab distance and current scale, and the object's scale is kept. |
| SuperliminalProperties.GrabMissIsIgnored | Assets/Scripts/Superliminal/Superliminal.cs:125 | A click whose grab ray misses gives the same frame as no click. |
| SuperliminalProperties.NonInteractableHitEndsFrame | Assets/Scripts/Superliminal/Superliminal.cs:127-132 | A grab hit on an object without the component changes nothing, and the capture, R and T blocks do not run. |
| SuperliminalProperties.ReleaseEndsSession | Assets/Scripts/Superliminal/Superliminal.cs:161-189 | A click while holding always releases. The slot is empty, rotation mode and the rotator are off, the collider is on, and the body is dynamic with no constraints. The camera look-at and `RotationOverridden` are left untouched. |
| SuperliminalProperties.EmptyHandedNeverRestoresCamera | Assets/Scripts/Superliminal/Superliminal.cs:164-169 | An empty-handed frame never clears `RotationOverridden` and never restores a cleared look-at. After a release in rotation mode, the camera stays overridden. |
| SuperliminalProperties.RotationModeFollowsR | Assets/Scripts/Superliminal/Superliminal.cs:223-249 | While holding, rotation mode after the frame equals "R held". Entering clears the look-at, sets the override and activates the rotator. Leaving restores the look-at cached at start, clears the override and deactivates the rotator. |
| SuperliminalProperties.TogglesHeldObjectUnlessRotating | Assets/Scripts/Superliminal/Superliminal.cs:223-261 | T while holding flips the held object's ghost flag exactly once when R is not held. It does nothing when R is held, including when rotation mode began in this frame. |
| SuperliminalProperties.CaptureChangesIffGuard | Assets/Scripts/Superliminal/Superliminal.cs:194-212 | Shutter capture changes the scene exactly when nothing is held, right is held, T is pressed, and the capture ray hits a ghost within 20 units. |
| SuperliminalProperties.EmptyHandedFrameIsCapture | Assets/Scripts/Superliminal/Superliminal.cs:192-252 | An empty-handed frame without a click is the shutter-capture block alone. |
| SuperliminalProperties.ReleaseFrameMayCapture | Assets/Scripts/Superliminal/Superliminal.cs:161-212 | The frame that releases an object can shutter-capture a ghost in range, which becomes normal with gravity on. |
| SuperliminalProperties.StepTouchesOnlyNamedObjects | Assets/Scripts/Superliminal/Superliminal.cs:117-262 | A frame changes no object other than the held one and the ones the two rays hit. |
| SuperliminalProperties.StartWithDefaults | Assets/Scripts/Superliminal/Superliminal.cs:36-37 | With the serialized defaults, the controller starts with no session, the rotator inactive, and limits 0.1 ≤ 10. It satisfies the invariant. |
| SuperliminalProperties.StepKeepsInv | Assets/Scripts/Superliminal/Superliminal.cs:117-262 | Every frame keeps the invariant. The held object is a ghostable scene object that is kinematic and collider-less. Rotation mode equals the rotator's flag and only exists during a session. |
| SuperliminalProperties.StepKeepsSettled | Assets/Scripts/SuperliminalObject.cs:52-68 | Once an object's gravity and material agree with its flag, no frame breaks that agreement. |
| SuperliminalProperties.RunKeepsInv | Assets/Scripts/Superliminal/Superliminal.cs:117-262 | Any run of frames keeps the invariant and the set of scene objects. |
| SuperliminalProperties.RunKeepsSettled | Assets/Scripts/SuperliminalObject.cs:52-68 | Over any run of frames, an object whose gravity and material agree with its ghost flag keeps that agreement. |
| SuperliminalProperties.FixedUpdateGating | Assets/Scripts/Superliminal/Superliminal.cs:86-95 | Under the invariant, the physics step rotates exactly in rotation mode. It resizes exactly when holding and the resize ray hits. The goal's x is the grab-time x times the distance ratio clamped to the limits, and the turn is the mouse delta times speed, frame time and invert factor. |
| SuperliminalProperties.FixedUpdateGoal | Assets/Scripts/Superliminal/Superliminal.cs:273-280 | For a positive baseline x, the physics step's goal x scale is the baseline x times the hit distance over the grab distance, clamped to [minScaleLimit, maxScaleLimit]. |
| SuperliminalProperties.FixedUpdateTurn | Assets/Scripts/Superliminal/Superliminal.cs:90-93 | The physics step's yaw and pitch are the mouse x and y deltas times the rotator's speed, the frame time and its ±1 invert factor. |
| SuperliminalProperties.RegrabSameBaseline | Assets/Scripts/Superliminal/Superliminal.cs:151-155 | Three back-to-back frames (grab, release, then grab again with the same ray answer) with no physics tick between them give the second session the same baseline distance and scale. |

## Left out

- Engine services are inputs or are absent. This covers raycasting, `Vector3.Distance`, input polling and `Time.deltaTime`. The grab distance, the hit distances and the mouse delta arrive already computed.
- `ResizeTarget` itself moves `localScale` 10·dt of the way toward the goal with `Vector3.Lerp`. It then places the object at the hit point, backed off by half its largest dimension plus 0.05 (Assets/Scripts/Superliminal/Superliminal.cs:283, 286-292). The model returns only the goal scale and leaves both writes out.
- `Transform.Rotate` quaternion composition is left out. A turn is two angles in degrees.
- Audio playback, `Debug.Log` and cursor locking are left out. The blend-mode and keyword writes are kept as fields of `Material`, with the engine's integer codes replaced by small enumerations.
- `sfxSource` is assumed assigned. If it is missing, `PlayOneShot` faults at Assets/Scripts/Superliminal/Superliminal.cs:157 and :187, after the grab or release has changed state. The rest of that frame's `HandleInput` would then not run. A grab frame would skip the R and T blocks, and a release frame would skip the shutter capture.
- Because that `localScale` write is left out, no step changes `Thing.scale`. In the source, a regrab after a longer hold records the resized scale.
- Superliminal.ResizeTarget: requires a positive grab distance and a non-zero baseline x scale. The source divides by both without checking. Floating-point infinities and NaN are not modelled, and all arithmetic is on reals, not 32-bit floats.
- ObjectRotator.RotateTarget: the angle arithmetic (Assets/Scripts/Superliminal/ObjectRotator.cs:44-54) is on reals, not 32-bit floats, so rounding is not modelled.
- The `ObjectRotator` component is assumed present. In the source, its absence is only logged at start, and the first rotation-mode change would then fault.
- A Renderer whose `material` is null is not modelled. `Awake` would fault reading its colour.
- The earlier revisions of the controller in Assets/Scripts/Superliminal.cs and Assets/Superliminal.cs declare the same class and are superseded by the live one. They are not part of this model.
- Companion, narrative triggers, HUD effects, collectables, the exit, audio triggers, the game manager and the UI manager are not part of this model. They are timed animation, trigger callbacks and display.

=== FILE: basics.dfy ===
/** Value types shared by the whole model: an optional value, Unity's
    vectors with real components, and an RGBA colour. */
module Basics {

  /** Stands in for a nullable engine reference or a raycast that may miss. */
  datatype Option<+T> = None | Some(value: T)

  datatype Vec2 = Vec2(x: real, y: real)

  datatype Vec3 = Vec3(x: real, y: real, z: real)

  /** Component-wise product of a vector with a scalar (`Vector3 * float`). */
  function Scale(v: Vec3, s: real): Vec3
  {
    Vec3(v.x * s, v.y * s, v.z * s)
  }

  /** An RGBA colour with real channels; `Black0` is C#'s `default(Color)`. */
  datatype Color = Color(r: real, g: real, b: real, a: real)

  const Black0: Color := Color(0.0, 0.0, 0.0, 0.0)
}

=== FILE: object_rotator.dfy ===
/** `ObjectRotator`: turns the held object by the mouse delta while
    rotation is active. The turn is returned as two angles in degrees;
    composing them into the object's rotation is left to the engine. */
module ObjectRotator {
  import opened Basics

  datatype Rotator = Rotator(rotationSpeed: real, inverted: bool, active: bool)

  /** Serialized defaults: speed 5, not inverted, inactive. */
  const DefaultRotator: Rotator := Rotator(5.0, false, false)

  /** Yaw about the world up axis, then pitch about the object's local right axis. */
  datatype Turn = Turn(yaw: real, pitch: real)

  /** `SetRotationActive`: the active flag becomes `active`; the settings are kept. */
  function SetRotationActive(r: Rotator, active: bool): (r': Rotator)
    ensures r'.active == active
    ensures r'.rotationSpeed == r.rotationSpeed && r'.inverted == r.inverted
  {
    r.(active := active)
  }

  /** +1 when `inverted`, -1 otherwise: by default the mouse motion is negated. */
  function InvertFactor(inverted: bool): (f: real)
    ensures f == 1.0 || f == -1.0
    ensures f == 1.0 <==> inverted
  {
    if inverted then 1.0 else -1.0
  }

  /** `RotateTarget`: nothing without a target or while inactive; otherwise
      the mouse delta scaled by speed and frame time, with the invert factor. */
  function RotateTarget(r: Rotator, hasTarget: bool, delta: Vec2, deltaTime: real): (t: Option<Turn>)
    ensures t.Some? <==> hasTarget && r.active
  {
    if !hasTarget || !r.active then None
    else
      var k := r.rotationSpeed * deltaTime;
      Some(Turn(delta.x * k * InvertFactor(r.inverted), delta.y * k * InvertFactor(r.inverted)))
  }

  /** The yaw is the horizontal mouse delta times speed, frame time and the
      invert factor; the pitch is the same for the vertical delta. */
  lemma RotateTargetAngles(r: Rotator, delta: Vec2, deltaTime: real)
    requires r.active
    ensures var t := RotateTarget(r, true, delta, deltaTime);
            && t.Some?
            && t.value.yaw == delta.x * r.rotationSpeed * deltaTime * (if r.inverted then 1.0 else -1.0)
            && t.value.pitch == delta.y * r.rotationSpeed * deltaTime * (if r.inverted then 1.0 else -1.0)
  {
  }

  /** Flipping `inverted` turns the object the other way by the same amount. */
  lemma InvertFlipsTurn(r: Rotator, delta: Vec2, deltaTime: real)
    requires r.active
    ensures var t := RotateTarget(r, true, delta, deltaTime);
            var u := RotateTarget(r.(inverted := !r.inverted), true, delta, deltaTime);
            t.Some? && u.Some? && u.value.yaw == -t.value.yaw && u.value.pitch == -t.value.pitch
  {
  }

  /** With the default settings, moving the mouse right (up) yaws (pitches)
      the object by a negative angle. */
  lemma DefaultOpposesMouse(delta: Vec2, deltaTime: real)
    requires deltaTime > 0.0
    ensures RotateTarget(DefaultRotator, true, delta, deltaTime).None?
    ensures var t := RotateTarget(SetRotationActive(DefaultRotator, true), true, delta, deltaTime);
            t.Some?
            && (delta.x > 0.0 ==> t.value.yaw < 0.0) && (delta.x < 0.0 ==> t.value.yaw > 0.0)
            && (delta.y > 0.0 ==> t.value.pitch < 0.0) && (delta.y < 0.0 ==> t.value.pitch > 0.0)
  {
  }

  /** The turn is linear in the mouse delta: two deltas in one tick turn the
      object as much as the two ticks would separately. */
  lemma TurnIsAdditive(r: Rotator, d1: Vec2, d2: Vec2, deltaTime: real)
    requires r.active
    ensures var a := RotateTarget(r, true, d1, deltaTime);
            var b := RotateTarget(r, true, d2, deltaTime);
            var s := RotateTarget(r, true, Vec2(d1.x + d2.x, d1.y + d2.y), deltaTime);
            a.Some? && b.Some? && s.Some?
            && s.value.yaw == a.value.yaw + b.value.yaw
            && s.value.pitch == a.value.pitch + b.value.pitch
  {
  }
}

=== FILE: physics.dfy ===
/** The parts of a Unity Rigidbody and Collider that the controller and
    the ghost component write. */
module Physics {

  /** `RigidbodyConstraints`: the two values the controller writes, and
      any other combination of freeze flags an object may start with. */
  datatype Constraints = NoConstraints | FreezeRotation | OtherConstraints(mask: nat)

  datatype Body = Body(isKinematic: bool, constraints: Constraints, useGravity: bool)

  datatype Collider = Collider(enabled: bool)
}

=== FILE: superliminal.dfy ===
/** The `Superliminal` controller: a frame step that reads the mouse and
    keyboard edges and the raycast answers and applies the input blocks of
    `HandleInput` in order, and a physics step that computes the resize goal
    and the rotation of the held object.

    Raycasts, distances and the mouse delta are inputs: the engine answers
    them before the step runs. */
module Superliminal {
  import opened Basics
  import opened Physics
  import opened SuperliminalObject
  import opened ObjectRotator

  /** A scene object, also standing for its transform (the grab and capture
      rays return one; the camera looks at one). */
  type ObjId = nat

  /** What the controller reads and writes on a scene object. */
  datatype Thing = Thing(
    body: Option<Body>,
    collider: Option<Collider>,
    component: Option<Component>,  // its `SuperliminalObject`, if any
    scale: Vec3)                   // `localScale`

  type World = map<ObjId, Thing>

  /** The Cinemachine virtual camera; only its look-at target matters here. */
  datatype Camera = Camera(lookAt: Option<ObjId>)

  datatype Controller = Controller(
    target: Option<ObjId>,          // the one held object
    isRotationMode: bool,
    rotator: Rotator,
    vcam: Option<Camera>,           // `playerVcam`, `None` when unassigned
    originalLookAt: Option<ObjId>,  // cached by `Start`
    rotationOverridden: bool,       // `FirstPersonController.RotationOverridden`
    originalDistance: real,         // distance to the object when grabbed
    initialScale: Vec3,             // its scale when grabbed
    minScaleLimit: real,
    maxScaleLimit: real)

  datatype Scene = Scene(ctl: Controller, world: World)

  /** The grab ray's answer: the object hit and the distance from the
      controller to that object's position. */
  datatype GrabHit = GrabHit(obj: ObjId, objectDistance: real)

  /** The nearest hit of the capture ray and its distance along the ray. */
  datatype RayHit = RayHit(obj: ObjId, distance: real)

  /** One frame of input: button edges and held states, and what the grab
      and capture rays would hit this frame. */
  datatype Frame = Frame(
    leftClick: bool,   // left button pressed this frame
    rightHeld: bool,   // right button held
    tPressed: bool,    // T pressed this frame
    rHeld: bool,       // R held
    grabRay: Option<GrabHit>,
    captureRay: Option<RayHit>)

  /** Reach of the shutter-capture ray. */
  const CaptureRange: real := 20.0

  /** Inspector defaults of the resize limits. */
  const DefaultMinScale: real := 0.1
  const DefaultMaxScale: real := 10.0

  /** Points a camera (if there is one) at `t`. */
  function Aim(vcam: Option<Camera>, t: Option<ObjId>): Option<Camera> {
    if vcam.Some? then Some(Camera(t)) else None
  }

  function SetCollider(c: Option<Collider>, enabled: bool): Option<Collider> {
    if c.Some? then Some(Collider(enabled)) else None
  }

  /** Suspends the physics of a grabbed body. */
  function Hold(b: Option<Body>): Option<Body> {
    if b.Some? then Some(b.value.(isKinematic := true, constraints := FreezeRotation)) else None
  }

  /** Hands a released body back to the physics simulation. */
  function Drop(b: Option<Body>): Option<Body> {
    if b.Some? then Some(b.value.(isKinematic := false, constraints := NoConstraints)) else None
  }

  /** `Start`: no session, rotation mode off, and the camera's look-at
      cached (nothing is cached without a camera). */
  function Start(vcam: Option<Camera>, rotator: Rotator, overridden: bool,
                 minScaleLimit: real, maxScaleLimit: real): (c: Controller)
    ensures c.target.None? && !c.isRotationMode
    ensures c.vcam == vcam && c.rotator == rotator && c.rotationOverridden == overridden
    ensures vcam.Some? ==> c.originalLookAt == vcam.value.lookAt
    ensures vcam.None? ==> c.originalLookAt.None?
    ensures c.minScaleLimit == minScaleLimit && c.maxScaleLimit == maxScaleLimit
  {
    Controller(None, false, rotator, vcam, if vcam.Some? then vcam.value.lookAt else None,
               overridden, 0.0, Vec3(0.0, 0.0, 0.0), minScaleLimit, maxScaleLimit)
  }

  /** The held object, if any, is part of the scene. */
  predicate Valid(s: Scene) {
    s.ctl.target.Some? ==> s.ctl.target.value in s.world
  }

  /** The rays can only hit objects of the scene. */
  predicate Fits(w: World, f: Frame) {
    && (f.grabRay.Some? ==> f.grabRay.value.obj in w)
    && (f.captureRay.Some? ==> f.captureRay.value.obj in w)
  }

  /** Whether the rest of `HandleInput` runs after a block. */
  datatype Flow = Continue(scene: Scene) | Return(scene: Scene)

  /** A held object has its physics suspended and its collider off. */
  predicate Held(o: Thing) {
    && (o.body.Some? ==> o.body.value.isKinematic && o.body.value.constraints == FreezeRotation)
    && (o.collider.Some? ==> !o.collider.value.enabled)
  }

  /** Starts a session on `hit.obj`: it becomes the target and is held, and
      the grab distance and its current scale become the session baseline. */
  function Grab(s: Scene, hit: GrabHit): (r: Scene)
    requires hit.obj in s.world
    ensures r.ctl.target == Some(hit.obj)
    ensures r.ctl.originalDistance == hit.objectDistance && r.ctl.initialScale == s.world[hit.obj].scale
    ensures r.ctl.(target := s.ctl.target, originalDistance := s.ctl.originalDistance,
                   initialScale := s.ctl.initialScale) == s.ctl
    ensures r.world.Keys == s.world.Keys
    ensures Held(r.world[hit.obj])
    ensures r.world[hit.obj].(body := s.world[hit.obj].body, collider := s.world[hit.obj].collider)
            == s.world[hit.obj]
    ensures r.world[hit.obj].body.Some? == s.world[hit.obj].body.Some?
    ensures r.world[hit.obj].body.Some? ==>
              r.world[hit.obj].body.value.useGravity == s.world[hit.obj].body.value.useGravity
    ensures r.world[hit.obj].collider.Some? == s.world[hit.obj].collider.Some?
    ensures forall id :: id in s.world && id != hit.obj ==> r.world[id] == s.world[id]
  {
    var o := s.world[hit.obj];
    Scene(s.ctl.(target := Some(hit.obj), originalDistance := hit.objectDistance,
                 initialScale := o.scale),
          s.world[hit.obj := o.(body := Hold(o.body), collider := SetCollider(o.collider, false))])
  }

  /** Ends the session: rotation mode and the rotator are switched off (the
      camera is not touched), the collider and the physics come back. */
  function Release(s: Scene): (r: Scene)
    requires s.ctl.target.Some? && s.ctl.target.value in s.world
    ensures r.ctl.target.None? && !r.ctl.isRotationMode
    ensures r.ctl.(target := s.ctl.target, isRotationMode := s.ctl.isRotationMode,
                   rotator := s.ctl.rotator) == s.ctl
    ensures s.ctl.isRotationMode ==> r.ctl.rotator == SetRotationActive(s.ctl.rotator, false)
    ensures !s.ctl.isRotationMode ==> r.ctl.rotator == s.ctl.rotator
    ensures r.ctl.vcam == s.ctl.vcam && r.ctl.rotationOverridden == s.ctl.rotationOverridden
    ensures r.world.Keys == s.world.Keys
    ensures var id := s.ctl.target.value;
            && r.world[id].body.Some? == s.world[id].body.Some?
            && (r.world[id].body.Some? ==>
                  && !r.world[id].body.value.isKinematic
                  && r.world[id].body.value.constraints == NoConstraints
                  && r.world[id].body.value.useGravity == s.world[id].body.value.useGravity)
            && r.world[id].collider.Some? == s.world[id].collider.Some?
            && (r.world[id].collider.Some? ==> r.world[id].collider.value.enabled)
            && r.world[id].component == s.world[id].component
            && r.world[id].scale == s.world[id].scale
    ensures forall id :: id in s.world && Some(id) != s.ctl.target ==> r.world[id] == s.world[id]
  {
    var id := s.ctl.target.value;
    var o := s.world[id];
    var ctl := if s.ctl.isRotationMode
               then s.ctl.(isRotationMode := false, rotator := SetRotationActive(s.ctl.rotator, false))
               else s.ctl;
    Scene(ctl.(target := None),
          s.world[id := o.(collider := SetCollider(o.collider, true), body := Drop(o.body))])
  }

  /** The left-click block: grab when empty-handed, release when holding.
      A hit on an object without a `SuperliminalObject` ends the frame. */
  function ClickBlock(s: Scene, f: Frame): (r: Flow)
    requires Valid(s) && Fits(s.world, f)
    ensures Valid(r.scene) && r.scene.world.Keys == s.world.Keys
    ensures !f.leftClick ==> r == Continue(s)
    ensures r.Return? <==>
              f.leftClick && s.ctl.target.None? && f.grabRay.Some?
              && s.world[f.grabRay.value.obj].component.None?
    ensures r.Return? ==> r.scene == s
  {
    if !f.leftClick then Continue(s)
    else if s.ctl.target.None? then
      match f.grabRay
      case None => Continue(s)
      case Some(hit) =>
        if s.world[hit.obj].component.None? then Return(s) else Continue(Grab(s, hit))
    else Continue(Release(s))
  }

  /** Calls `ToggleState` on the component of `id`; a fault (no Rigidbody)
      ends the frame. */
  function ToggleObject(s: Scene, id: ObjId): (r: Flow)
    requires id in s.world && s.world[id].component.Some?
    ensures r.scene.ctl == s.ctl && r.scene.world.Keys == s.world.Keys
    ensures id in r.scene.world && r.scene.world[id].component.Some?
    ensures r.scene.world[id].component.value.isGhost == !s.world[id].component.value.isGhost
    ensures r.Return? <==> s.world[id].body.None?
  {
    var o := s.world[id];
    match ToggleState(o.component.value, o.body)
    case Toggled(c, b) => Continue(s.(world := s.world[id := o.(component := Some(c), body := Some(b))]))
    case Faulted(c) => Return(s.(world := s.world[id := o.(component := Some(c))]))
  }

  /** Whether the capture ray this frame reaches a ghost: the ray only
      reports hits within `CaptureRange`. */
  predicate CapturesGhost(w: World, f: Frame)
    requires Fits(w, f)
  {
    && f.captureRay.Some?
    && f.captureRay.value.distance <= CaptureRange
    && w[f.captureRay.value.obj].component.Some?
    && w[f.captureRay.value.obj].component.value.isGhost
  }

  /** The shutter-capture block: empty-handed, right held and T pressed,
      a ghost hit by the capture ray is toggled (back to normal). */
  function CaptureBlock(s: Scene, f: Frame): (r: Flow)
    requires Valid(s) && Fits(s.world, f)
    ensures Valid(r.scene) && r.scene.world.Keys == s.world.Keys
    ensures r.scene.ctl == s.ctl
    ensures forall id :: id in s.world && s.world[id].component.Some? ==>
              && r.scene.world[id].component.Some?
              && (r.scene.world[id].component.value.isGhost ==> s.world[id].component.value.isGhost)
  {
    if s.ctl.target.None? && f.rightHeld && f.tPressed && CapturesGhost(s.world, f)
    then ToggleObject(s, f.captureRay.value.obj)
    else Continue(s)
  }

  /** The R block: while holding, R held enters rotation mode (camera stops
      looking at its target, the player camera is overridden); R not held
      leaves it and points the camera back at the cached target. */
  function RotationBlock(s: Scene, f: Frame): (r: Scene)
    ensures r.world == s.world && r.ctl.target == s.ctl.target
    ensures s.ctl.target.Some? ==> r.ctl.isRotationMode == f.rHeld
  {
    if s.ctl.target.None? then s
    else if f.rHeld && !s.ctl.isRotationMode then
      s.(ctl := s.ctl.(isRotationMode := true, rotationOverridden := true,
                       rotator := SetRotationActive(s.ctl.rotator, true),
                       vcam := Aim(s.ctl.vcam, None)))
    else if !f.rHeld && s.ctl.isRotationMode then
      s.(ctl := s.ctl.(isRotationMode := false, rotationOverridden := false,
                       rotator := SetRotationActive(s.ctl.rotator, false),
                       vcam := Aim(s.ctl.vcam, s.ctl.originalLookAt)))
    else s
  }

  /** The T block: while holding and not rotating, T toggles the held object
      (`ToggleTargetState`, which skips an object without the component). */
  function ToggleBlock(s: Scene, f: Frame): (r: Scene)
    requires Valid(s)
    ensures r.ctl == s.ctl && r.world.Keys == s.world.Keys
    ensures !f.tPressed || s.ctl.isRotationMode ==> r == s
    ensures forall id :: id in s.world && Some(id) != s.ctl.target ==> r.world[id] == s.world[id]
  {
    if s.ctl.target.None? || !f.tPressed || s.ctl.isRotationMode then s
    else if s.world[s.ctl.target.value].component.None? then s
    else ToggleObject(s, s.ctl.target.value).scene
  }

  /** `HandleInput`: the click, capture, R and T blocks in source order; a
      block that returns ends the frame. */
  function Step(s: Scene, f: Frame): (r: Scene)
    requires Valid(s) && Fits(s.world, f)
    ensures Valid(r) && r.world.Keys == s.world.Keys
    ensures s.ctl.target.Some? ==> r.ctl.target == s.ctl.target || r.ctl.target.None?
    ensures s.ctl.target.None? && r.ctl.target.Some? ==>
              f.leftClick && f.grabRay.Some? && r.ctl.target.value == f.grabRay.value.obj
  {
    match ClickBlock(s, f)
    case Return(s1) => s1
    case Continue(s1) =>
      match CaptureBlock(s1, f)
      case Return(s2) => s2
      case Continue(s2) => ToggleBlock(RotationBlock(s2, f), f)
  }

  /** `Mathf.Clamp`: below `min` gives `min`, otherwise above `max` gives `max`. */
  function Clamp(value: real, min: real, max: real): (r: real)
    ensures min <= max ==> min <= r <= max
    ensures min <= value <= max ==> r == value
    ensures r == value || r == min || r == max
    ensures min <= max && value < min ==> r == min
    ensures min <= max && value > max ==> r == max
  {
    if value < min then min else if value > max then max else value
  }

  /** The scale factor of `ResizeTarget`: the ratio of the hit distance to the
      grab distance, clamped so the x scale stays within the limits. */
  function ResizeFactor(hitDistance: real, originalDistance: real, initialX: real,
                        minScaleLimit: real, maxScaleLimit: real): real
    requires originalDistance > 0.0 && initialX != 0.0
  {
    Clamp(hitDistance / originalDistance, minScaleLimit / initialX, maxScaleLimit / initialX)
  }

  /** The scale `ResizeTarget` moves the held object toward, or `None` when
      there is no target or the resize ray misses (scale and position stay). */
  function ResizeTarget(c: Controller, resizeRay: Option<real>): (r: Option<Vec3>)
    requires c.target.Some? ==> c.originalDistance > 0.0 && c.initialScale.x != 0.0
    ensures r.None? <==> c.target.None? || resizeRay.None?
    ensures r.Some? ==> r.value.x * c.initialScale.y == r.value.y * c.initialScale.x
    ensures r.Some? ==> r.value.x * c.initialScale.z == r.value.z * c.initialScale.x
  {
    if c.target.None? || resizeRay.None? then None
    else
      var k := ResizeFactor(resizeRay.value, c.originalDistance, c.initialScale.x,
                            c.minScaleLimit, c.maxScaleLimit);
      Some(Scale(c.initialScale, k))
  }

  /** The goal's x scale is the baseline x scaled by the distance ratio and
      then clamped to the limits: a goal beyond a limit lands on that limit
      and not on the other one. */
  lemma ResizeGoalClamped(c: Controller, hitDistance: real)
    requires c.target.Some? && c.originalDistance > 0.0 && c.initialScale.x > 0.0
    ensures var r := ResizeTarget(c, Some(hitDistance));
            r.Some? && r.value.x == Clamp(c.initialScale.x * (hitDistance / c.originalDistance),
                                          c.minScaleLimit, c.maxScaleLimit)
  {
    ClampInScaleSpace(hitDistance / c.originalDistance, c.initialScale.x,
                      c.minScaleLimit, c.maxScaleLimit);
  }

  /** Clamping a ratio to the limits divided by a positive baseline and then
      scaling by that baseline is clamping the scaled ratio to the limits
      themselves. */
  lemma ClampInScaleSpace(ratio: real, x: real, min: real, max: real)
    requires x > 0.0
    ensures x * Clamp(ratio, min / x, max / x) == Clamp(x * ratio, min, max)
  {
    assert x * (min / x) == min && x * (max / x) == max;
    if ratio < min / x {
      assert x * ratio < x * (min / x);
    } else if ratio > max / x {
      assert x * ratio > x * (max / x);
      assert x * ratio >= x * (min / x);
    } else {
      assert x * (min / x) <= x * ratio <= x * (max / x);
    }
  }

  /** Whatever the resize ray reports, even a zero or huge distance, the
      goal's x scale lies within the limits (for a positive baseline). */
  lemma ResizeGoalWithinLimits(c: Controller, resizeRay: Option<real>)
    requires c.target.Some? && resizeRay.Some?
    requires c.originalDistance > 0.0 && c.initialScale.x > 0.0
    requires c.minScaleLimit <= c.maxScaleLimit
    ensures var r := ResizeTarget(c, resizeRay);
            r.Some? && c.minScaleLimit <= r.value.x <= c.maxScaleLimit
  {
  }

  /** Unless the limits bite, the goal scale grows in proportion to the hit
      distance: scale over distance equals the baseline's scale over the grab
      distance, which is what keeps the object's apparent size. */
  lemma ResizeGoalKeepsApparentSize(c: Controller, hitDistance: real)
    requires c.target.Some? && c.originalDistance > 0.0 && c.initialScale.x > 0.0
    requires c.minScaleLimit <= c.initialScale.x * (hitDistance / c.originalDistance) <= c.maxScaleLimit
    ensures var r := ResizeTarget(c, Some(hitDistance));
            r.Some? && r.value.x * c.originalDistance == c.initialScale.x * hitDistance
  {
    var r := ResizeTarget(c, Some(hitDistance));
    assert r.value.x == c.initialScale.x * (hitDistance / c.originalDistance);
  }

  /** One physics tick's input: the resize ray's hit distance, the mouse
      delta and the frame time. */
  datatype Tick = Tick(resizeRay: Option<real>, mouseDelta: Vec2, deltaTime: real)

  /** What a physics tick asks of the engine: the resize goal, and a turn. */
  datatype Effect = Effect(goalScale: Option<Vec3>, turn: Option<Turn>)

  /** `FixedUpdate`: resize, then rotate only while holding in rotation mode. */
  function FixedUpdate(c: Controller, t: Tick): (e: Effect)
    requires c.target.Some? ==> c.originalDistance > 0.0 && c.initialScale.x != 0.0
    ensures e.goalScale.None? <==> c.target.None? || t.resizeRay.None?
    ensures e.turn.Some? <==> c.target.Some? && c.isRotationMode && c.rotator.active
  {
    Effect(ResizeTarget(c, t.resizeRay),
           if c.target.Some? && c.isRotationMode
           then RotateTarget(c.rotator, true, t.mouseDelta, t.deltaTime)
           else None)
  }
}

=== FILE: superliminal_object.dfy ===
/** The per-object ghost/normal state of `SuperliminalObject`: the
    persistent `IsGhost` flag, the gravity flag of the object's
    Rigidbody, and the material the component recolours. */
module SuperliminalObject {
  import opened Basics
  import opened Physics

  /** The URP `_Surface` float: 0 is opaque, 1 is transparent. */
  datatype SurfaceType = OpaqueSurface | TransparentSurface

  /** `UnityEngine.Rendering.BlendMode` values written to `_SrcBlend` / `_DstBlend`. */
  datatype BlendFactor = BlendZero | BlendOne | SrcAlpha | OneMinusSrcAlpha | OtherBlend(code: int)

  /** `Material.renderQueue`: Geometry (2000), Transparent (3000), or any other value. */
  datatype RenderQueue = GeometryQueue | TransparentQueue | OtherQueue(value: int)

  /** The material instance the component caches and edits. A colour slot
      is `None` when the shader has no such property. */
  datatype Material = Material(
    surface: SurfaceType,
    srcBlend: BlendFactor,
    dstBlend: BlendFactor,
    zWrite: bool,
    alphaTestOn: bool,     // the `_ALPHATEST_ON` shader keyword
    transparentOn: bool,   // the `_SURFACE_TYPE_TRANSPARENT` shader keyword
    queue: RenderQueue,
    baseColor: Option<Color>,  // the `_BaseColor` property
    color: Option<Color>)      // the `_Color` property

  /** The translucent red every ghost is painted with. */
  const GhostTint: Color := Color(1.0, 0.0, 0.0, 0.5)

  /** Inspector default of the public `IsGhost` field. */
  const DefaultIsGhost: bool := false

  /** The component's fields after `Awake`. `material` is the cached
      instance, `None` when `Awake` gave up before caching it. */
  datatype Component = Component(
    enabled: bool,
    isGhost: bool,
    material: Option<Material>,
    originalColor: Color)

  predicate HasColorSlot(m: Material) {
    m.baseColor.Some? || m.color.Some?
  }

  /** The colour seen through the lookup order `_BaseColor`, then `_Color`;
      `fallback` when the material has neither. */
  function ReadColor(m: Material, fallback: Color): Color {
    if m.baseColor.Some? then m.baseColor.value
    else if m.color.Some? then m.color.value
    else fallback
  }

  /** Writes a colour through the same lookup order: only the first
      property the material has is written. */
  function WriteColor(m: Material, c: Color): (r: Material)
    ensures HasColorSlot(r) == HasColorSlot(m)
    ensures r.baseColor.Some? == m.baseColor.Some? && r.color.Some? == m.color.Some?
    ensures HasColorSlot(m) ==> forall fallback :: ReadColor(r, fallback) == c
    ensures m.baseColor.Some? ==> r.color == m.color
    ensures m.baseColor.None? && m.color.Some? ==> r.color == Some(c)
    ensures !HasColorSlot(m) ==> r == m
    ensures r.(baseColor := m.baseColor, color := m.color) == m
  {
    if m.baseColor.Some? then m.(baseColor := Some(c))
    else if m.color.Some? then m.(color := Some(c))
    else m
  }

  /** Writing back the colour just read leaves the material as it was. */
  lemma WriteReadColor(m: Material, fallback: Color)
    ensures WriteColor(m, ReadColor(m, fallback)) == m
  {
  }

  /** The material settings that belong to one state of the object. */
  predicate Dressed(m: Material, asGhost: bool, original: Color) {
    if asGhost then
      && m.surface == TransparentSurface
      && m.srcBlend == SrcAlpha && m.dstBlend == OneMinusSrcAlpha
      && !m.zWrite
      && !m.alphaTestOn && m.transparentOn
      && m.queue == TransparentQueue
      && (HasColorSlot(m) ==> ReadColor(m, original) == GhostTint)
    else
      && m.surface == OpaqueSurface
      && m.srcBlend == BlendOne && m.dstBlend == BlendZero
      && m.zWrite
      && !m.transparentOn
      && m.queue == GeometryQueue
      && ReadColor(m, original) == original
  }

  /** `Awake`: without a Rigidbody or a Renderer the component disables
      itself and caches nothing; otherwise it caches the renderer's
      material and the colour found through the lookup order. */
  function Awake(inspectorIsGhost: bool, hasBody: bool, renderer: Option<Material>): (c: Component)
    ensures c.isGhost == inspectorIsGhost
    ensures c.enabled <==> hasBody && renderer.Some?
    ensures !c.enabled ==> c.material.None? && c.originalColor == Black0
    ensures c.enabled ==> c.material == renderer
    ensures c.enabled && renderer.value.baseColor.Some? ==>
              c.originalColor == renderer.value.baseColor.value
    ensures c.enabled && renderer.value.baseColor.None? && renderer.value.color.Some? ==>
              c.originalColor == renderer.value.color.value
    ensures c.enabled && !HasColorSlot(renderer.value) ==> c.originalColor == Black0
  {
    if !hasBody || renderer.None? then
      Component(false, inspectorIsGhost, None, Black0)
    else
      Component(true, inspectorIsGhost, renderer, ReadColor(renderer.value, Black0))
  }

  /** With the inspector default the component starts as a normal object;
      once configured, the colour it cached is the one a toggle into ghost
      and back restores on the material. */
  lemma AwakeCachesRestorableColor(b: Body, renderer: Material)
    ensures var c := Awake(DefaultIsGhost, true, Some(renderer));
            var r1 := ToggleState(c, Some(b));
            var r2 := ToggleState(r1.comp, Some(r1.body));
            && !c.isGhost && c.enabled
            && r2.comp.material.Some?
            && ReadColor(r2.comp.material.value, Black0) == ReadColor(renderer, Black0)
  {
  }

  /** `ApplyMaterialState`: dresses the cached material for the ghost state
      (`apply`) or the normal state; a missing material is left alone. */
  function ApplyMaterialState(m: Option<Material>, apply: bool, original: Color): (r: Option<Material>)
    ensures r.None? <==> m.None?
    ensures r.Some? ==> Dressed(r.value, apply, original)
    ensures r.Some? ==> r.value.baseColor.Some? == m.value.baseColor.Some?
    ensures r.Some? ==> r.value.color.Some? == m.value.color.Some?
    ensures r.Some? && m.value.baseColor.Some? ==> r.value.color == m.value.color
    ensures r.Some? && !apply ==> r.value.alphaTestOn == m.value.alphaTestOn
  {
    match m
    case None => None
    case Some(mat) =>
      if apply then
        Some(WriteColor(mat.(surface := TransparentSurface, srcBlend := SrcAlpha,
                             dstBlend := OneMinusSrcAlpha, zWrite := false, alphaTestOn := false,
                             transparentOn := true, queue := TransparentQueue), GhostTint))
      else
        Some(WriteColor(mat.(surface := OpaqueSurface, srcBlend := BlendOne, dstBlend := BlendZero,
                             zWrite := true, transparentOn := false, queue := GeometryQueue), original))
  }

  /** What a toggle leaves behind: the component and its Rigidbody, or,
      when the object has no Rigidbody, the component as it stood when the
      write to `rb.useGravity` faulted. */
  datatype Outcome = Toggled(comp: Component, body: Body) | Faulted(comp: Component)

  /** The object's gravity and material agree with its `IsGhost` flag. */
  predicate Settled(c: Component, b: Body) {
    && b.useGravity == !c.isGhost
    && (c.material.Some? ==> Dressed(c.material.value, c.isGhost, c.originalColor))
  }

  /** `ToggleState`: negates `IsGhost`, dresses the material for the new
      state, then sets gravity to the opposite of `IsGhost`. There is no
      guard for a component `Awake` disabled: with no Rigidbody the gravity
      write faults after the flag and the material have changed. */
  function ToggleState(c: Component, body: Option<Body>): (r: Outcome)
    ensures r.comp.isGhost == !c.isGhost
    ensures r.Faulted? <==> body.None?
    ensures r.comp.enabled == c.enabled && r.comp.originalColor == c.originalColor
    ensures r.comp.material.Some? <==> c.material.Some?
    ensures r.comp.material.Some? ==> Dressed(r.comp.material.value, r.comp.isGhost, c.originalColor)
    ensures r.Toggled? ==> Settled(r.comp, r.body)
    ensures r.Toggled? ==> r.body.(useGravity := body.value.useGravity) == body.value
  {
    var nowGhost := !c.isGhost;
    var c' := c.(isGhost := nowGhost, material := ApplyMaterialState(c.material, nowGhost, c.originalColor));
    match body
    case None => Faulted(c')
    case Some(b) => Toggled(c', b.(useGravity := !nowGhost))
  }

  /** The observable state of a ghostable object: its flag, gravity, and the
      material's surface, depth write, queue and colour properties. */
  datatype Look = Look(
    isGhost: bool, useGravity: bool,
    surface: Option<SurfaceType>, zWrite: Option<bool>, queue: Option<RenderQueue>,
    baseColor: Option<Option<Color>>, color: Option<Option<Color>>)

  function LookOf(c: Component, b: Body): Look {
    match c.material
    case None => Look(c.isGhost, b.useGravity, None, None, None, None, None)
    case Some(m) =>
      Look(c.isGhost, b.useGravity, Some(m.surface), Some(m.zWrite), Some(m.queue),
           Some(m.baseColor), Some(m.color))
  }

  /** Toggling twice undoes a toggle: from any settled state (every state a
      toggle produces) two toggles restore the flag, gravity, surface, depth
      write, queue and colours, and the Rigidbody as a whole. */
  lemma ToggleTwiceRestores(c: Component, b: Body)
    requires Settled(c, b)
    ensures ToggleState(c, Some(b)).Toggled?
    ensures var r1 := ToggleState(c, Some(b));
            var r2 := ToggleState(r1.comp, Some(r1.body));
            r2.Toggled? && LookOf(r2.comp, r2.body) == LookOf(c, b) && r2.body == b
  {
  }

  /** The state a toggle leaves depends only on the new flag: two objects
      with the same cached colour and material shape that toggle into the same
      state look the same afterwards. */
  lemma ToggleForgetsHistory(c1: Component, c2: Component, b1: Body, b2: Body)
    requires c1.isGhost == c2.isGhost
    requires c1.originalColor == c2.originalColor
    requires c1.material.Some? <==> c2.material.Some?
    requires c1.material.Some? ==> c1.material.value.baseColor.Some? == c2.material.value.baseColor.Some?
    requires c1.material.Some? ==> c1.material.value.color == c2.material.value.color
    ensures LookOf(ToggleState(c1, Some(b1)).comp, ToggleState(c1, Some(b1)).body)
         == LookOf(ToggleState(c2, Some(b2)).comp, ToggleState(c2, Some(b2)).body)
  {
  }

  /** The ghost state switches `_ALPHATEST_ON` off and the normal state never
      switches it back on, so a cut-out material is not the same after
      three toggles as after one. */
  lemma AlphaTestNotRestored()
    ensures var m := Material(OpaqueSurface, BlendOne, BlendZero, true, true, false,
                              GeometryQueue, Some(Black0), None);
            var c := Component(true, true, Some(m), Black0);
            var b := Body(false, NoConstraints, true);
            var r1 := ToggleState(c, Some(b));
            var r2 := ToggleState(r1.comp, Some(r1.body));
            var r3 := ToggleState(r2.comp, Some(r2.body));
            r1.comp.material.value.alphaTestOn && !r3.comp.material.value.alphaTestOn
  {
  }

  /** `n` toggles in a row on an object with a Rigidbody. */
  function ToggleTimes(c: Component, b: Body, n: nat): (r: (Component, Body))
    decreases n
  {
    if n == 0 then (c, b)
    else
      var r := ToggleState(c, Some(b));
      ToggleTimes(r.comp, r.body, n - 1)
  }

  /** After `n` toggles the flag is the initial one exactly when `n` is even,
      and after at least one toggle the object is settled. */
  lemma {:induction false} ToggleTimesParity(c: Component, b: Body, n: nat)
    ensures ToggleTimes(c, b, n).0.isGhost == (if n % 2 == 0 then c.isGhost else !c.isGhost)
    ensures n > 0 ==> Settled(ToggleTimes(c, b, n).0, ToggleTimes(c, b, n).1)
    decreases n
  {
    if n > 0 {
      var r := ToggleState(c, Some(b));
      ToggleTimesParity(r.comp, r.body, n - 1);
    }
  }
}

=== FILE: superliminal_properties.dfy ===
/** Properties of the controller's frame step: what a grab, a release, the
    R and T keys and a shutter capture do to the scene, the invariants a
    step keeps, and how the physics step is gated. */
module SuperliminalProperties {
  import opened Basics
  import opened Physics
  import opened SuperliminalObject
  import opened ObjectRotator
  import opened Superliminal

  /** What every reachable scene satisfies: the held object is a ghostable
      object of the scene and is held; rotation mode and the rotator agree
      and are only on during a session. */
  predicate Inv(s: Scene) {
    && Valid(s)
    && (s.ctl.target.Some? ==>
          s.world[s.ctl.target.value].component.Some? && Held(s.world[s.ctl.target.value]))
    && s.ctl.isRotationMode == s.ctl.rotator.active
    && (s.ctl.isRotationMode ==> s.ctl.target.Some?)
  }

  /** A left click that starts a session: the target is set, the object is
      made kinematic with rotation frozen and its collider disabled, and the
      grab distance and the object's scale become the session baseline. */
  lemma GrabStartsSession(s: Scene, f: Frame)
    requires Valid(s) && Fits(s.world, f)
    requires f.leftClick && s.ctl.target.None? && f.grabRay.Some?
    requires s.world[f.grabRay.value.obj].component.Some?
    ensures var id := f.grabRay.value.obj;
            var r := Step(s, f);
            && r.ctl.target == Some(id)
            && r.ctl.originalDistance == f.grabRay.value.objectDistance
            && r.ctl.initialScale == s.world[id].scale
            && Held(r.world[id])
            && r.world[id].body.Some? == s.world[id].body.Some?
            && r.world[id].collider.Some? == s.world[id].collider.Some?
            && r.world[id].scale == s.world[id].scale
  {
  }

  /** A left click whose grab ray misses does nothing: the frame runs as if
      the button had not been pressed. */
  lemma GrabMissIsIgnored(s: Scene, f: Frame)
    requires Valid(s) && Fits(s.world, f)
    requires f.leftClick && s.ctl.target.None? && f.grabRay.None?
    ensures Step(s, f) == Step(s, f.(leftClick := false))
  {
  }

  /** A grab ray that hits an object without a `SuperliminalObject` starts
      no session and ends the frame: capture, R and T do not run. */
  lemma NonInteractableHitEndsFrame(s: Scene, f: Frame)
    requires Valid(s) && Fits(s.world, f)
    requires f.leftClick && s.ctl.target.None? && f.grabRay.Some?
    requires s.world[f.grabRay.value.obj].component.None?
    ensures Step(s, f) == s
  {
  }

  /** A left click while holding always releases: the collider is back on,
      the body is dynamic and unconstrained, the slot is empty, rotation
      mode and the rotator are off, and the camera (its look-at and the
      override flag) is left exactly as it was. */
  lemma ReleaseEndsSession(s: Scene, f: Frame)
    requires Inv(s) && Fits(s.world, f)
    requires f.leftClick && s.ctl.target.Some?
    ensures var id := s.ctl.target.value;
            var r := Step(s, f);
            && r.ctl.target.None?
            && !r.ctl.isRotationMode && !r.ctl.rotator.active
            && r.ctl.vcam == s.ctl.vcam
            && r.ctl.rotationOverridden == s.ctl.rotationOverridden
            && r.world[id].body.Some? == s.world[id].body.Some?
            && (r.world[id].body.Some? ==>
                  !r.world[id].body.value.isKinematic && r.world[id].body.value.constraints == NoConstraints)
            && r.world[id].collider.Some? == s.world[id].collider.Some?
            && (r.world[id].collider.Some? ==> r.world[id].collider.value.enabled)
  {
  }

  /** A release in rotation mode leaves the player camera overridden and the
      virtual camera's look-at untouched, and no later empty-handed frame
      restores them: only the R-release path of a later session does. */
  lemma EmptyHandedNeverRestoresCamera(s: Scene, f: Frame)
    requires Inv(s) && Fits(s.world, f)
    requires s.ctl.target.None?
    ensures var r := Step(s, f);
            && (s.ctl.rotationOverridden ==> r.ctl.rotationOverridden)
            && (s.ctl.vcam == Some(Camera(None)) ==> r.ctl.vcam == s.ctl.vcam)
  {
  }

  /** While holding (and not clicking), rotation mode after the frame is
      exactly "R held". Entering sets the override, activates the rotator and
      clears the camera's look-at; leaving clears the override, deactivates
      the rotator and restores the look-at cached at start. */
  lemma RotationModeFollowsR(s: Scene, f: Frame)
    requires Valid(s) && Fits(s.world, f)
    requires s.ctl.target.Some? && !f.leftClick
    ensures var r := Step(s, f);
            && r.ctl.target == s.ctl.target
            && r.ctl.isRotationMode == f.rHeld
            && (f.rHeld && !s.ctl.isRotationMode ==>
                  r.ctl.rotationOverridden && r.ctl.rotator.active
                  && r.ctl.vcam == (if s.ctl.vcam.Some? then Some(Camera(None)) else None))
            && (!f.rHeld && s.ctl.isRotationMode ==>
                  !r.ctl.rotationOverridden && !r.ctl.rotator.active
                  && r.ctl.vcam == (if s.ctl.vcam.Some? then Some(Camera(s.ctl.originalLookAt)) else None))
            && (f.rHeld == s.ctl.isRotationMode ==>
                  r.ctl.rotationOverridden == s.ctl.rotationOverridden && r.ctl.vcam == s.ctl.vcam
                  && r.ctl.rotator == s.ctl.rotator)
  {
  }

  /** T while holding toggles the held object's ghost flag exactly once, and
      not at all when R is held, even if rotation mode began this frame. */
  lemma TogglesHeldObjectUnlessRotating(s: Scene, f: Frame)
    requires Inv(s) && Fits(s.world, f)
    requires s.ctl.target.Some? && !f.leftClick && f.tPressed
    ensures var id := s.ctl.target.value;
            var r := Step(s, f);
            && r.world[id].component.Some?
            && r.world[id].component.value.isGhost
               == (if f.rHeld then s.world[id].component.value.isGhost
                   else !s.world[id].component.value.isGhost)
  {
  }

  /** The shutter capture changes the scene exactly when its guard holds:
      empty-handed, right held, T pressed, and the capture ray reaching a
      ghost within range. */
  lemma CaptureChangesIffGuard(s: Scene, f: Frame)
    requires Valid(s) && Fits(s.world, f)
    ensures CaptureBlock(s, f).scene != s
            <==> s.ctl.target.None? && f.rightHeld && f.tPressed && CapturesGhost(s.world, f)
  {
  }

  /** Empty-handed frames without a click are the shutter capture alone: the
      R and T blocks only act during a session. */
  lemma EmptyHandedFrameIsCapture(s: Scene, f: Frame)
    requires Valid(s) && Fits(s.world, f)
    requires s.ctl.target.None? && !f.leftClick
    ensures Step(s, f) == CaptureBlock(s, f).scene
  {
  }

  /** Nothing else changes: a step only touches the held object, the object
      the grab ray hit, and the object the capture ray hit. */
  lemma StepTouchesOnlyNamedObjects(s: Scene, f: Frame, id: ObjId)
    requires Valid(s) && Fits(s.world, f)
    requires id in s.world
    requires s.ctl.target != Some(id)
    requires f.grabRay.Some? ==> f.grabRay.value.obj != id
    requires f.captureRay.Some? ==> f.captureRay.value.obj != id
    ensures Step(s, f).world[id] == s.world[id]
  {
  }

  /** The controller as the scene starts it with the serialized defaults:
      no session, rotation off and the rotator inactive, ordered resize
      limits, and the invariant holds whatever the scene. */
  lemma StartWithDefaults(vcam: Option<Camera>, overridden: bool, w: World)
    ensures var c := Start(vcam, DefaultRotator, overridden, DefaultMinScale, DefaultMaxScale);
            && Inv(Scene(c, w))
            && !c.rotator.active && c.rotator.rotationSpeed == 5.0 && !c.rotator.inverted
            && 0.0 < c.minScaleLimit <= c.maxScaleLimit
  {
  }

  /** The frame that releases an object can also shutter-capture: with the
      slot empty again, right held and T pressed, a ghost (with a Rigidbody)
      within range of the capture ray turns normal in that same frame. */
  lemma ReleaseFrameMayCapture(s: Scene, f: Frame)
    requires Inv(s) && Fits(s.world, f)
    requires f.leftClick && s.ctl.target.Some? && f.rightHeld && f.tPressed
    requires CapturesGhost(Release(s).world, f)
    requires s.world[f.captureRay.value.obj].body.Some?
    ensures var id := f.captureRay.value.obj;
            var r := Step(s, f);
            && r.ctl.target.None?
            && r.world[id].component.Some? && !r.world[id].component.value.isGhost
            && r.world[id].body.Some? && r.world[id].body.value.useGravity
  {
  }

  lemma StepKeepsInv(s: Scene, f: Frame)
    requires Inv(s) && Fits(s.world, f)
    ensures Inv(Step(s, f))
  {
  }

  /** A ghostable object with a Rigidbody whose gravity and material agree
      with its flag. */
  predicate ThingSettled(o: Thing) {
    o.component.Some? && o.body.Some? ==> Settled(o.component.value, o.body.value)
  }

  /** Once an object is settled (every toggle leaves it so), no step undoes
      that: grabs and releases leave gravity and material alone. */
  lemma StepKeepsSettled(s: Scene, f: Frame, id: ObjId)
    requires Valid(s) && Fits(s.world, f)
    requires id in s.world && ThingSettled(s.world[id])
    ensures ThingSettled(Step(s, f).world[id])
  {
    var s1 := ClickBlock(s, f).scene;
    ClickBlockKeepsSettled(s, f, id);
    if ClickBlock(s, f).Continue? {
      CaptureBlockKeepsSettled(s1, f, id);
      var s2 := CaptureBlock(s1, f).scene;
      if CaptureBlock(s1, f).Continue? {
        ToggleBlockKeepsSettled(RotationBlock(s2, f), f, id);
      }
    }
  }

  /** A toggle leaves every settled object settled, the toggled one included. */
  lemma ToggleObjectKeepsSettled(s: Scene, target: ObjId, id: ObjId)
    requires target in s.world && s.world[target].component.Some?
    requires id in s.world && ThingSettled(s.world[id])
    ensures ThingSettled(ToggleObject(s, target).scene.world[id])
  {
  }

  /** Grabs and releases leave gravity and material alone. */
  lemma ClickBlockKeepsSettled(s: Scene, f: Frame, id: ObjId)
    requires Valid(s) && Fits(s.world, f)
    requires id in s.world && ThingSettled(s.world[id])
    ensures ThingSettled(ClickBlock(s, f).scene.world[id])
  {
  }

  /** The shutter capture only toggles, so it keeps objects settled. */
  lemma CaptureBlockKeepsSettled(s: Scene, f: Frame, id: ObjId)
    requires Valid(s) && Fits(s.world, f)
    requires id in s.world && ThingSettled(s.world[id])
    ensures ThingSettled(CaptureBlock(s, f).scene.world[id])
  {
    if s.ctl.target.None? && f.rightHeld && f.tPressed && CapturesGhost(s.world, f) {
      ToggleObjectKeepsSettled(s, f.captureRay.value.obj, id);
    }
  }

  /** The T block only toggles the held object, so it keeps objects settled. */
  lemma ToggleBlockKeepsSettled(s: Scene, f: Frame, id: ObjId)
    requires Valid(s)
    requires id in s.world && ThingSettled(s.world[id])
    ensures ThingSettled(ToggleBlock(s, f).world[id])
  {
    if s.ctl.target.Some? && f.tPressed && !s.ctl.isRotationMode
       && s.world[s.ctl.target.value].component.Some? {
      ToggleObjectKeepsSettled(s, s.ctl.target.value, id);
    }
  }

  /** The frames after the first still fit a scene with the same objects. */
  lemma FitsRest(w: World, w': World, frames: seq<Frame>)
    requires |frames| > 0 && w'.Keys == w.Keys
    requires forall i :: 0 <= i < |frames| ==> Fits(w, frames[i])
    ensures forall i :: 0 <= i < |frames[1..]| ==> Fits(w', frames[1..][i])
  {
    forall i | 0 <= i < |frames[1..]|
      ensures Fits(w', frames[1..][i])
    {
      assert frames[1..][i] == frames[i + 1];
      assert Fits(w, frames[i + 1]);
    }
  }

  /** Runs a sequence of frames. */
  function Run(s: Scene, frames: seq<Frame>): Scene
    requires Valid(s)
    requires forall i :: 0 <= i < |frames| ==> Fits(s.world, frames[i])
    decreases |frames|
  {
    if |frames| == 0 then s
    else
      var s1 := Step(s, frames[0]);
      FitsRest(s.world, s1.world, frames);
      Run(s1, frames[1..])
  }

  /** Over any run of frames the invariant holds: at most one object is
      held, it is held, and rotation mode only exists during a session. */
  lemma {:induction false} RunKeepsInv(s: Scene, frames: seq<Frame>)
    requires Inv(s)
    requires forall i :: 0 <= i < |frames| ==> Fits(s.world, frames[i])
    ensures Inv(Run(s, frames))
    ensures Run(s, frames).world.Keys == s.world.Keys
    decreases |frames|
  {
    if |frames| > 0 {
      var s1 := Step(s, frames[0]);
      StepKeepsInv(s, frames[0]);
      FitsRest(s.world, s1.world, frames);
      RunKeepsInv(s1, frames[1..]);
    }
  }

  /** Over any run of frames an object whose gravity and material agree
      with its flag keeps that agreement. */
  lemma {:induction false} RunKeepsSettled(s: Scene, frames: seq<Frame>, id: ObjId)
    requires Valid(s)
    requires forall i :: 0 <= i < |frames| ==> Fits(s.world, frames[i])
    requires id in s.world && ThingSettled(s.world[id])
    ensures id in Run(s, frames).world && ThingSettled(Run(s, frames).world[id])
    decreases |frames|
  {
    if |frames| > 0 {
      var s1 := Step(s, frames[0]);
      StepKeepsSettled(s, frames[0], id);
      FitsRest(s.world, s1.world, frames);
      RunKeepsSettled(s1, frames[1..], id);
    }
  }

  /** The physics step rotates exactly when an object is held in rotation
      mode, and resizes exactly when an object is held and the resize ray
      hits. The goal is the grab-time x scale times the distance ratio,
      clamped to the limits, and the turn is the mouse delta times speed,
      frame time and invert factor. */
  lemma FixedUpdateGating(s: Scene, t: Tick)
    requires Inv(s)
    requires s.ctl.target.Some? ==> s.ctl.originalDistance > 0.0 && s.ctl.initialScale.x != 0.0
    ensures var e := FixedUpdate(s.ctl, t);
            && (e.turn.Some? <==> s.ctl.isRotationMode)
            && (e.goalScale.Some? <==> s.ctl.target.Some? && t.resizeRay.Some?)
    ensures var e := FixedUpdate(s.ctl, t);
            e.goalScale.Some? && s.ctl.initialScale.x > 0.0 ==>
              e.goalScale.value.x
              == Clamp(s.ctl.initialScale.x * (t.resizeRay.value / s.ctl.originalDistance),
                       s.ctl.minScaleLimit, s.ctl.maxScaleLimit)
    ensures var e := FixedUpdate(s.ctl, t);
            e.turn.Some? ==>
              && e.turn.value.yaw
                 == t.mouseDelta.x * s.ctl.rotator.rotationSpeed * t.deltaTime
                    * InvertFactor(s.ctl.rotator.inverted)
              && e.turn.value.pitch
                 == t.mouseDelta.y * s.ctl.rotator.rotationSpeed * t.deltaTime
                    * InvertFactor(s.ctl.rotator.inverted)
  {
    FixedUpdateGoal(s.ctl, t);
    FixedUpdateTurn(s.ctl, t);
  }

  /** The physics step's resize goal is the clamped scale-space goal. */
  lemma FixedUpdateGoal(c: Controller, t: Tick)
    requires c.target.Some? ==> c.originalDistance > 0.0 && c.initialScale.x != 0.0
    ensures var e := FixedUpdate(c, t);
            e.goalScale.Some? && c.initialScale.x > 0.0 ==>
              e.goalScale.value.x
              == Clamp(c.initialScale.x * (t.resizeRay.value / c.originalDistance),
                       c.minScaleLimit, c.maxScaleLimit)
  {
    if c.target.Some? && t.resizeRay.Some? && c.initialScale.x > 0.0 {
      assert t.resizeRay == Some(t.resizeRay.value);
      assert FixedUpdate(c, t).goalScale == ResizeTarget(c, Some(t.resizeRay.value));
      ResizeGoalClamped(c, t.resizeRay.value);
    }
  }

  /** The physics step's turn is the rotator's turn for the mouse delta. */
  lemma FixedUpdateTurn(c: Controller, t: Tick)
    requires c.target.Some? ==> c.originalDistance > 0.0 && c.initialScale.x != 0.0
    ensures var e := FixedUpdate(c, t);
            e.turn.Some? ==>
              && e.turn.value.yaw
                 == t.mouseDelta.x * c.rotator.rotationSpeed * t.deltaTime * InvertFactor(c.rotator.inverted)
              && e.turn.value.pitch
                 == t.mouseDelta.y * c.rotator.rotationSpeed * t.deltaTime * InvertFactor(c.rotator.inverted)
  {
    if c.target.Some? && c.isRotationMode && c.rotator.active {
      RotateTargetAngles(c.rotator, t.mouseDelta, t.deltaTime);
    }
  }


  /** Grab, release and grab the same object again with the same ray answer:
      the second session records the same baseline as the first. */
  lemma RegrabSameBaseline(s: Scene, hit: GrabHit)
    requires Inv(s) && s.ctl.target.None? && hit.obj in s.world
    requires s.world[hit.obj].component.Some?
    ensures var grab := Frame(true, false, false, false, Some(hit), None);
            var release := Frame(true, false, false, false, None, None);
            var s1 := Step(s, grab);
            var s2 := Step(s1, release);
            var s3 := Step(s2, grab);
            && s1.ctl.target == Some(hit.obj) && s2.ctl.target.None? && s3.ctl.target == Some(hit.obj)
            && s3.ctl.originalDistance == s1.ctl.originalDistance
            && s3.ctl.initialScale == s1.ctl.initialScale
  {
  }
}
